=== FILE: README.md ===
# Cheesemakers service, modelled in Dafny

This project models the core of a small Flask/SQLAlchemy service. The service
keeps cheese **producers** and their **cheeses** and has two parts:

- the field validators of the two SQLAlchemy models. A validator runs on every
  assignment to its column. It raises `AssertionError` on a bad value and
  otherwise stores the value unchanged.
- the request handlers that list, read, delete, create and patch rows.

The database is an immutable `Store` of two maps, `producers: map<int, Producer>`
and `cheeses: map<int, Cheese>`, each keyed by primary key. A handler is a
function from the store and the request to a `Reply(status, payload, store')`.
The two read handlers return no store, so they cannot change it. The clock is
a parameter. `validate_founding_year` gets `currentYear` and
`validate_production_date` gets `today`. Prices are exact `real` numbers.

Modules, one file each:

| file | module | holds |
|---|---|---|
| errors.dfy | `Errors` | `Result`, `Option` and the exception classes the handlers can observe |
| json.dfy | `Json` | request body values, and how Python compares them and uses them as keys |
| dates.dfy | `Dates` | `Date`, chronological order, `strptime(s, '%Y-%m-%d')`, ISO formatting |
| models.dfy | `Models` | `Producer`, `Cheese`, the five validators, the two constructors |
| database.dfy | `Database` | `Store`, key-ordered scans, the id of a new row, which column values a commit can write, store invariants |
| app.dfy | `App` | the six handlers |
| app_properties.dfy | `AppProperties` | properties that link several requests |

The create endpoint is meant to return 201 with the new cheese. As written
it never does: every request that gets past the field and producer checks
ends in 400 (see Findings). The model keeps both versions. `App.CreateCheeseAsWritten`
is the code as it stands, and `App.CreateCheese` is the corrected handler.
Both are instances of `App.CreateCheeseUsing`, which takes the date
conversion as a parameter. Its contract states the rollback guarantee for
every conversion.

## Model

| member | source | states |
|---|---|---|
| `Models.ValidateName` | server/models.py:22-26 | a name is refused exactly when it is empty, with "Name is required"; an accepted name is stored as given |
| `Models.ValidateFoundingYear` | server/models.py:28-33 | a year is accepted exactly when 1900 <= year <= current year, both ends inclusive (so 1899 and current year + 1 fail); an accepted year is stored as given |
| `Models.ValidateOperationSize` | server/models.py:35-40 | exactly "small", "medium", "large", "family" and "corporate" are accepted, nothing else; an accepted size is stored as given |
| `Models.ValidateProductionDate` | server/models.py:59-63 | a date is accepted exactly when it lies strictly before today; today itself and later dates are refused; an accepted date is stored as given |
| `Models.ValidatePrice` | server/models.py:65-69 | a price is accepted exactly when 1.00 <= price <= 45.00, both bounds inclusive; an accepted price is stored as given |
| `Models.NewProducerAcceptsExactlyValid` | server/models.py:10-40 | building a producer succeeds exactly when the name, founding year and size all pass their validators, and the producer then holds the supplied values |
| `Models.NewCheese` | server/models.py:46-69 | building a cheese succeeds exactly when the date is before today and the price is a number in range; a date not before today raises AssertionError, then a non-number price raises TypeError, then an out-of-range price raises AssertionError; the cheese holds the supplied values and is valid for today |
| `Models.ValidityIsStableOverTime` | server/models.py:28-63 | a cheese valid when written stays valid on every later day, and so does a producer in every later year |
| `Json.AsKey` | server/app.py:97 | a body value names a primary key only if it is an integral number or a bool, and then the key compares equal to the value |
| `Dates.BeforeIsStrictTotalOrder` | server/models.py:61 | the date order used by the production-date check is irreflexive, transitive, total on distinct dates and asymmetric |
| `Dates.ParseIso` | server/app.py:105 | the intended `strptime(s, '%Y-%m-%d')` accepts only real calendar dates and fails only with ValueError |
| `Dates.ParseFormatRoundTrip` | server/app.py:105 | parsing the `%Y-%m-%d` text of any valid date gives that date back |
| `Database.SortedKeys` | server/app.py:30 | a table scan yields every key exactly once, in strictly increasing order |
| `Database.CheeseIdsPartition` | server/app.py:81 | filtering cheeses by `producer_id` partitions the cheese table: the cheeses of two different producers never overlap, and every cheese is among those of its own producer |
| `Database.FreshId` | server/app.py:111-112 | a new row gets a positive key that is greater than every key in use, so it is free |
| `App.GetProducers` | server/app.py:28-43 | one summary per stored producer: same count, every id appears, each summary matches its row, ids ascend |
| `App.CheesesOf` | server/app.py:59-68 | a producer's cheese list holds exactly the stored cheeses with that `producer_id`, each with its stored columns |
| `App.GetProducerById` | server/app.py:45-72 | 404 exactly when the id is absent; otherwise 200 with the producer's fields and exactly its cheeses, each listed once, in ascending id order |
| `App.DeleteProducer` | server/app.py:74-87 | an absent id gives 404 and no change; a present one gives 204, removes the producer and every cheese with its `producer_id`, and leaves all other rows unchanged |
| `App.ConvertDate` | server/app.py:105 | the date conversion as written always raises TypeError, on a string with Python's text "descriptor 'date' for 'datetime.datetime' objects doesn't apply to a 'str' object"; the intended one succeeds exactly on a string that parses as a date |
| `App.BuildCheese` | server/app.py:101-112 | the try block succeeds exactly when the date conversion and the cheese constructor succeed and the commit can write `is_raw_milk` (null, a boolean, 0 or 1) and `kind` and `image` (not a list or an object); the cheese is valid for today, belongs to the given producer and is writable |
| `App.CreateCheeseUsing` | server/app.py:89-128 | a missing field gives 400 and an unknown producer 404, both before any change; past those checks, any failure of the try block, commit included, whatever the date conversion does, gives 400 "validation errors" with an error text and the store unchanged; 201 exactly when all checks pass, and it adds one valid cheese of an existing producer under a free key |
| `App.CreateCheeseAsWritten` | server/app.py:101-128 | as written, no create request succeeds; past the two checks the TypeError from line 105 gives 400 "validation errors" with the store unchanged, and for a string date the body is exactly `["validation errors", "descriptor 'date' for 'datetime.datetime' objects doesn't apply to a 'str' object"]` |
| `App.CreateCheese` | server/app.py:89-128 | the corrected create gives 201 exactly when every field is present, the producer exists, the date parses and is before today, the price is a number in [1.00, 45.00], `is_raw_milk` is null, a boolean, 0 or 1, and neither `kind` nor `image` is a list or an object; the new row holds the supplied values |
| `App.Patch` | server/app.py:136-139 | a patch succeeds exactly when it has no `production_date`, any price passes `validate_price`, and any `producer_id` is a key; named columns take the supplied values and the rest keep theirs |
| `App.UpdateCheese` | server/app.py:130-142 | an absent id gives 404 with no change; for a present id, 200 exactly when neither the `setattr` loop nor the commit raises (the commit raises on a column value the database cannot hold), and 500 with no change and no JSON body when either does; on 200 only that cheese changes, to its patched value |
| `App.DeleteCheese` | server/app.py:144-153 | an absent id gives 404 with no change; a present one gives 204 and removes exactly that cheese |
| `AppProperties.DeleteProducerKeepsOtherPages` | server/app.py:45-87 | after a producer is deleted its page is 404, and every other producer's page, cheese list included, is as before |
| `AppProperties.DeleteProducerLeavesNoCheeses` | server/app.py:81-85 | after a producer is deleted, no cheese with its id remains |
| `AppProperties.CreatedCheeseIsListed` | server/app.py:89-128 | a cheese the corrected create accepts appears, with its new id, on its producer's page |
| `AppProperties.CreateAsWrittenRefusesValidRequest` | server/app.py:105 | some well-formed request that the corrected handler accepts with 201 is refused with 400 as written, and the store is unchanged |
| `AppProperties.UnwritableColumnIsRefused` | server/app.py:101-142 | a list or an object in `kind` or `image`, or an `is_raw_milk` other than null, a boolean, 0 or 1, makes the commit raise: the corrected create does not answer 201 and changes nothing, and an update of a present cheese answers 500 and changes nothing |
| `AppProperties.UpdateIgnoresUnknownKeys` | server/app.py:137-139 | keys that are not attributes make no difference to an update |
| `AppProperties.UpdateWithoutColumnsChangesNothing` | server/app.py:130-142 | a patch that names no column succeeds and leaves the store unchanged |
| `AppProperties.UpdateIsIdempotent` | server/app.py:130-142 | sending the same patch twice has the same effect as sending it once |
| `AppProperties.UpdateCanOrphanCheese` | server/app.py:137-141 | a patch can point a cheese at a producer that does not exist, because the foreign key is not checked |
| `AppProperties.HandlersKeepPricesInRange` | server/app.py:74-153 | if every stored price is in [1.00, 45.00], every handler keeps it so |
| `AppProperties.HandlersKeepReferentialIntegrity` | server/app.py:74-128 | delete-producer, create-cheese and delete-cheese keep every cheese attached to a stored producer |
| `AppProperties.HandlersKeepRowsWritable` | server/app.py:74-153 | if every stored cheese holds only values its columns can take, every handler keeps it so |

## Left out

- Flask setup, routing decorators, CORS, Flask-Migrate and the `index` greeting (server/app.py:1-26): framework glue with no logic.
- SQLAlchemy sessions, queries and commits: replaced by the pure two-map store. A failed request returns the store it was given.
- JSON shaping and `strftime` formatting of dates in responses: a payload carries the rows themselves.
- `datetime.now()`: `currentYear` and `today` are parameters.
- Float semantics: a price is the exact value of its JSON literal. Rounding to a double is not modelled. Neither are `NaN` and `Infinity`, which Python's JSON decoder accepts; `NaN` would pass both price comparisons.
- SQL column typing: `kind`, `image` and `is_raw_milk` are stored as the JSON value supplied, once the commit has accepted it. The commit check is modelled: SQLAlchemy's `Boolean` type takes only None, True, False, 0 and 1, and the sqlite3 driver cannot bind a list or a dict. SQLite's type affinity is not modelled: a number stored in `kind` reads back as text, and 1 in `is_raw_milk` reads back as True.
- App.UpdateCheese, App.CreateCheese: an integer in `kind` or `image` outside the signed 64-bit range makes the sqlite3 driver raise `OverflowError` at the commit (server/app.py:112, 141), so the source answers 400 on create and 500 on update. The model treats every number as bindable, because a decoded number does not record whether its literal was an int or a float.
- Json.AsKey: a string such as "1" is treated as naming no producer. SQLite would convert it to the integer key in the lookup. `Query.get` also unwraps a one-element list (`[1]`) or an object keyed by the primary-key name (`{"id": 1}`) and finds that producer, so the create request would go on to the try block and end in 400. Other lists and objects (`[]`, `[1, 2]`, `{"x": 1}`) make `Query.get` raise `InvalidRequestError` at server/app.py:97, outside the try block, so the source answers 500. The model answers 404 for all of these.
- App.GetProducerById, App.DeleteProducer, App.CreateCheeseUsing, App.UpdateCheese, App.DeleteCheese: ids are unbounded integers. SQLite keys are signed 64-bit, and an id of 2^63 or more makes the sqlite3 driver raise `OverflowError` in `query.get` (server/app.py:47, 76, 97, 132, 146), which the source answers with 500. The model answers 404.
- App.Patch: a `producer_id` that is not an integral number is treated as raising. The source would store it, or NULL for `null`.
- App.UpdateCheese: only the six `Cheese` columns count as attributes. `hasattr` (server/app.py:138) is also true for `id`, for the `producer` relationship and for inherited members such as `query`, `metadata` and `to_dict`, and the source assigns them all. Assigning `id` moves the row to that key at the commit, or raises there, giving 500, when the key is taken. `"producer": null` clears the relationship, so the flush at server/app.py:141 sets `producer_id` to NULL: the cheese is orphaned, with status 200 and no exception. A `producer` value that is neither null nor a `Producer` raises inside `setattr`, giving 500. A key such as `query`, `metadata` or `to_dict` sets an instance attribute over the class one and changes no row. The model ignores all of these keys.
- App.UpdateCheese: on success the status is the 200 the code writes, and the payload is the patched row. The `serialize()` method the response calls is not visible in the code modelled, so the response body is not modelled.
- App.UpdateCheese: an exception in the `setattr` loop or in the commit is not caught, so Flask answers with its own 500 page. The model gives status 500, the store unchanged, and the payload `ServerError`, which carries no exception text. The content of Flask's page is not modelled.
- Request bodies are JSON objects. Other bodies are not modelled. In `create_cheese`, `field in data` on a JSON array tests list membership and on a string tests for a substring (server/app.py:94): such a body that lacks a field name gets 400 "Missing fields", and one that holds all six names passes the check and then raises at `data['producer_id']` (server/app.py:97), giving 500. A missing body (`None`) raises at the field check. `update_cheese` reads the body only after its 404 check (server/app.py:132-136), so an absent id still gets 404 whatever the body is; for a present id a non-object body raises at `data.items()`.
- No handler creates producers. `Models.NewProducer` models the constructor and its validators.
- App.CreateCheeseUsing: the second element of a 400 "validation errors" body is Python's `str(e)` only for the validators' AssertionErrors, for the TypeError of server/app.py:105 and for a price that is not a number. The other texts are paraphrases. `strptime` quotes the input ("time data '2023-13-01' does not match format '%Y-%m-%d'", "unconverted data remains: x", "year 0 is out of range"); the model uses two fixed texts. SQLAlchemy prefixes a failed commit's text with the driver's exception class and appends the statement and its parameters; the model keeps a short form. A number is named `int` in a type name when it is integral and `float` otherwise, so a literal such as `2.0` is named `int` where Python says `float`.
- Dates.ParseIso: only ASCII digits are read. Python's `\d` also matches other Unicode decimal digits.
- Row order: `Producer.query.all()` and `producer.cheeses` have no ORDER BY. The model returns rows in ascending key order, the order SQLite scans a rowid table.
- `__repr__` of both models: presentation only.

## Findings

| source | as written | input that shows it | evidently intended | confidence | as-written member | corrected member |
|---|---|---|---|---|---|---|
| server/app.py:105 | `datetime.date(value, '%Y-%m-%d')`, with `datetime` the class imported at line 5, calls the unbound `date` method on a value that is not a datetime, so it raises TypeError; the `except` at lines 126-128 turns this into 400 "validation errors" | POST /cheeses with all six fields, `producer_id` of an existing producer, `production_date` "2023-05-01" and `price` 12.5 | parse the text with `datetime.strptime(value, '%Y-%m-%d').date()` and create the cheese with 201 | high; not executed | App.CreateCheeseAsWritten | App.CreateCheese |

`AppProperties.CreateAsWrittenRefusesValidRequest` builds this request. It
shows that the corrected handler answers 201 and the handler as written
answers 400.

=== FILE: app.dfy ===
/** The request handlers as transitions of the store.

  Each handler takes the store and the request (path id, JSON body, and the
  date the validators read as "today") and gives the HTTP status, the
  response payload and the store after the request. A handler that fails
  leaves the store as it found it: the create handler rolls its session
  back, and a request that raises without being caught never commits.
  The two read handlers return no store at all, so they cannot change it.
 */
module App {
  import opened Errors
  import opened Json
  import opened Dates
  import opened Models
  import opened Database

  // ---------------------------------------------------------------------
  // Responses

  /** The producer fields the listing and the detail page show. */
  datatype ProducerSummary = ProducerSummary(
    id: int,
    name: string,
    foundingYear: int,
    operationSize: string,
    region: string,
    image: string)

  /** A cheese as the detail page and the create response show it: its id
      with its columns (the date is shown unformatted). */
  datatype CheeseView = CheeseView(id: int, cheese: Cheese)

  datatype ProducerDetail = ProducerDetail(summary: ProducerSummary, cheeses: seq<CheeseView>)

  datatype ProducerReply = ProducerReply(status: int, detail: Option<ProducerDetail>)

  datatype Payload =
    | NoContent
    | ErrorMessage(error: string)
    /** Flask's own error page for an exception no handler catches: the
        response carries no JSON and no exception text. */
    | ServerError
    | ErrorList(errors: seq<string>)
    | CreatedCheese(id: int, cheese: Cheese, producerName: string)
    | PatchedCheese(id: int, cheese: Cheese)

  datatype Reply = Reply(status: int, payload: Payload, store: Store)

  function Summary(id: int, p: Producer): ProducerSummary {
    ProducerSummary(id, p.name, p.foundingYear, p.operationSize, p.region, p.image)
  }

  // ---------------------------------------------------------------------
  // GET /producers

  /** The summaries of the given producers, in the order of `ids`. */
  function Summaries(s: Store, ids: seq<int>): (r: seq<ProducerSummary>)
    requires forall i | 0 <= i < |ids| :: ids[i] in s.producers
    ensures |r| == |ids|
    ensures forall i | 0 <= i < |r| :: r[i] == Summary(ids[i], s.producers[ids[i]])
  {
    seq(|ids|, i requires 0 <= i < |ids| => Summary(ids[i], s.producers[ids[i]]))
  }

  /** The summaries of a strictly increasing listing of all the producer
      keys describe every producer once, in key order. */
  lemma SummariesOfAllKeys(s: Store, ids: seq<int>)
    requires StrictlyIncreasing(ids)
    requires forall i | 0 <= i < |ids| :: ids[i] in s.producers
    requires forall k | k in s.producers :: k in ids
    requires |ids| == |s.producers|
    ensures var r := Summaries(s, ids);
            && |r| == |s.producers|
            && (forall i | 0 <= i < |r| :: r[i].id in s.producers && r[i] == Summary(r[i].id, s.producers[r[i].id]))
            && (forall id | id in s.producers :: exists i | 0 <= i < |r| :: r[i].id == id)
            && (forall i, j | 0 <= i < j < |r| :: r[i].id < r[j].id)
  {
    var r := Summaries(s, ids);
    assert forall i | 0 <= i < |r| :: r[i].id == ids[i];
    forall id | id in s.producers ensures exists i | 0 <= i < |r| :: r[i].id == id {
      var i :| 0 <= i < |ids| && ids[i] == id;
      assert r[i].id == id;
    }
  }

  /** `get_producers`: one summary per stored producer, in key order. The
      status is always 200. */
  function GetProducers(s: Store): (r: seq<ProducerSummary>)
    ensures |r| == |s.producers|
    ensures forall i | 0 <= i < |r| :: r[i].id in s.producers && r[i] == Summary(r[i].id, s.producers[r[i].id])
    ensures forall id | id in s.producers :: exists i | 0 <= i < |r| :: r[i].id == id
    ensures forall i, j | 0 <= i < j < |r| :: r[i].id < r[j].id
  {
    var ids := SortedKeys(s.producers.Keys);
    SummariesOfAllKeys(s, ids);
    Summaries(s, ids)
  }

  // ---------------------------------------------------------------------
  // GET /producers/<id>

  /** The views of the given cheeses, in the order of `ids`. */
  function CheeseViews(s: Store, ids: seq<int>): (r: seq<CheeseView>)
    requires forall i | 0 <= i < |ids| :: ids[i] in s.cheeses
    ensures |r| == |ids|
    ensures forall i | 0 <= i < |r| :: r[i] == CheeseView(ids[i], s.cheeses[ids[i]])
  {
    seq(|ids|, i requires 0 <= i < |ids| => CheeseView(ids[i], s.cheeses[ids[i]]))
  }

  /** `producer.cheeses`: the cheeses whose `producer_id` is `id`, in key order. */
  function CheesesOf(s: Store, id: int): (r: seq<CheeseView>)
    ensures forall i | 0 <= i < |r| :: r[i].id in s.cheeses && r[i].cheese == s.cheeses[r[i].id]
                                       && r[i].cheese.producerId == id
    ensures forall k | k in s.cheeses && s.cheeses[k].producerId == id :: exists i | 0 <= i < |r| :: r[i].id == k
    ensures forall i, j | 0 <= i < j < |r| :: r[i].id < r[j].id
  {
    var ids := SortedKeys(CheeseIdsOf(s, id));
    var r := CheeseViews(s, ids);
    assert forall k | k in CheeseIdsOf(s, id) :: exists i | 0 <= i < |ids| :: ids[i] == k;
    r
  }

  /** `get_producer_by_id`. */
  function GetProducerById(s: Store, id: int): (r: ProducerReply)
    ensures r.status == 404 <==> id !in s.producers
    ensures r.status == 200 <==> id in s.producers
    ensures r.detail.Some? <==> r.status == 200
    ensures r.detail.Some? ==> r.detail.value.summary == Summary(id, s.producers[id])
    ensures r.detail.Some? ==>
              forall i | 0 <= i < |r.detail.value.cheeses| ::
                var v := r.detail.value.cheeses[i];
                v.id in s.cheeses && v.cheese == s.cheeses[v.id] && v.cheese.producerId == id
    ensures r.detail.Some? ==>
              forall k | k in s.cheeses && s.cheeses[k].producerId == id ::
                exists i | 0 <= i < |r.detail.value.cheeses| :: r.detail.value.cheeses[i].id == k
    ensures r.detail.Some? ==>
              forall i, j | 0 <= i < j < |r.detail.value.cheeses| ::
                r.detail.value.cheeses[i].id < r.detail.value.cheeses[j].id
  {
    if id !in s.producers then ProducerReply(404, None)
    else ProducerReply(200, Some(ProducerDetail(Summary(id, s.producers[id]), CheesesOf(s, id))))
  }

  // ---------------------------------------------------------------------
  // DELETE /producers/<id>

  /** `delete_producer`: the producer's cheeses are deleted explicitly, then
      the producer, in one commit. */
  function DeleteProducer(s: Store, id: int): (r: Reply)
    ensures id !in s.producers ==> r.status == 404 && r.store == s
    ensures id in s.producers ==> r.status == 204 && r.payload == NoContent
    ensures r.status == 204 ==>
              && r.store.producers.Keys == s.producers.Keys - {id}
              && (forall p | p in r.store.producers :: r.store.producers[p] == s.producers[p])
              && (forall k :: k in r.store.cheeses <==> k in s.cheeses && s.cheeses[k].producerId != id)
              && (forall k | k in r.store.cheeses :: r.store.cheeses[k] == s.cheeses[k])
  {
    if id !in s.producers then Reply(404, ErrorMessage("Resource not found"), s)
    else
      var cheeses := s.cheeses - CheeseIdsOf(s, id);
      Reply(204, NoContent, Store(s.producers - {id}, cheeses))
  }

  // ---------------------------------------------------------------------
  // POST /cheeses

  /** The fields a create request must carry, whatever their values. */
  const RequiredFields: seq<string> := ["kind", "is_raw_milk", "production_date", "image", "price", "producer_id"]

  predicate HasRequiredFields(body: Body) {
    forall f | f in RequiredFields :: f in body
  }

  /** How the create handler turns the submitted production date into a date. */
  datatype DateConversion =
    /** `datetime.date(value, '%Y-%m-%d')` with `datetime` the class: the
        unbound method `date` is called on a value that is not a datetime
        and raises TypeError, whatever the value. */
    | AsWritten
    /** `datetime.strptime(value, '%Y-%m-%d').date()`. */
    | Strptime

  /** The text Python gives the TypeError of the conversion as written. */
  const NotADatetime: string := "descriptor 'date' for 'datetime.datetime' objects doesn't apply to a 'str' object"

  function ConvertDate(how: DateConversion, v: Json): (r: Result<Date>)
    ensures how == AsWritten ==> r.Err? && r.error.TypeError?
    ensures how == AsWritten && v.JStr? ==> r.error.message == NotADatetime
    ensures how == Strptime ==> (r.Ok? <==> v.JStr? && ParseIso(v.s).Ok?)
    ensures r.Ok? ==> Valid(r.value)
  {
    match how
    case AsWritten =>
      Err(TypeError("descriptor 'date' for 'datetime.datetime' objects doesn't apply to a '" + TypeName(v) + "' object"))
    case Strptime =>
      if v.JStr? then ParseIso(v.s) else Err(TypeError("strptime() argument 1 must be str, not " + TypeName(v)))
  }

  /** The `try` block of `create_cheese`: build the cheese from the body,
      then commit it. The constructor's arguments are evaluated in order, so
      the date conversion runs before any validator; the commit then fails
      on a column value the database cannot hold. */
  function BuildCheese(how: DateConversion, body: Body, producerId: int, today: Date): (r: Result<Cheese>)
    requires HasRequiredFields(body)
    ensures r.Ok? <==> && ConvertDate(how, body["production_date"]).Ok?
                       && NewCheese(body["kind"], body["is_raw_milk"], ConvertDate(how, body["production_date"]).value,
                                    body["image"], body["price"], producerId, today).Ok?
                       && BooleanBindable(body["is_raw_milk"]) && Bindable(body["kind"]) && Bindable(body["image"])
    ensures r.Ok? ==> ValidCheese(r.value, today) && r.value.producerId == producerId
    ensures r.Ok? ==> ColumnsWritable(JsonColumns(r.value))
  {
    assert "production_date" in RequiredFields;
    var date :- ConvertDate(how, body["production_date"]);
    var c :- NewCheese(body["kind"], body["is_raw_milk"], date, body["image"], body["price"], producerId, today);
    var _ :- Flush(JsonColumns(c));
    Ok(c)
  }

  /** `create_cheese`, with the date conversion as a parameter. Whatever the
      conversion does, every failure leaves the store as it was, and a
      success adds exactly one valid cheese, of an existing producer, under
      a key that was free. */
  function CreateCheeseUsing(how: DateConversion, s: Store, body: Body, today: Date): (r: Reply)
    ensures r.status == 201 || r.status == 400 || r.status == 404
    ensures !HasRequiredFields(body) ==> r.status == 400 && r.store == s
    ensures (&& HasRequiredFields(body)
             && (AsKey(body["producer_id"]).None? || AsKey(body["producer_id"]).value !in s.producers))
            ==> r.status == 404 && r.store == s
    ensures (&& HasRequiredFields(body)
             && AsKey(body["producer_id"]).Some?
             && AsKey(body["producer_id"]).value in s.producers
             && BuildCheese(how, body, AsKey(body["producer_id"]).value, today).Err?)
            ==> && r.status == 400 && r.store == s
                && r.payload == ErrorList(["validation errors",
                                           BuildCheese(how, body, AsKey(body["producer_id"]).value, today).error.message])
    ensures r.status != 201 ==> r.store == s
    ensures r.status == 201 <==>
              && HasRequiredFields(body)
              && AsKey(body["producer_id"]).Some? && AsKey(body["producer_id"]).value in s.producers
              && BuildCheese(how, body, AsKey(body["producer_id"]).value, today).Ok?
    ensures r.status == 201 ==>
              && r.payload.CreatedCheese?
              && r.payload.id !in s.cheeses
              && r.store.producers == s.producers
              && r.store.cheeses == s.cheeses[r.payload.id := r.payload.cheese]
              && ValidCheese(r.payload.cheese, today)
              && r.payload.cheese.producerId in s.producers
  {
    if !HasRequiredFields(body) then
      Reply(400, ErrorList(["Missing fields"]), s)
    else
      var key := AsKey(body["producer_id"]);
      if key.None? || key.value !in s.producers then
        Reply(404, ErrorList(["Producer not found"]), s)
      else
        match BuildCheese(how, body, key.value, today)
        case Err(e) =>
          Reply(400, ErrorList(["validation errors", e.message]), s)
        case Ok(c) =>
          var id := FreshId(s.cheeses.Keys);
          Reply(201, CreatedCheese(id, c, s.producers[key.value].name), s.(cheeses := s.cheeses[id := c]))
  }

  /** `create_cheese` as written: no request creates a cheese. */
  function CreateCheeseAsWritten(s: Store, body: Body, today: Date): (r: Reply)
    ensures r.status != 201 && r.store == s
    ensures (&& HasRequiredFields(body)
             && AsKey(body["producer_id"]).Some?
             && AsKey(body["producer_id"]).value in s.producers)
            ==> && r.status == 400 && r.payload.ErrorList?
                && |r.payload.errors| == 2 && r.payload.errors[0] == "validation errors"
    ensures (&& HasRequiredFields(body)
             && AsKey(body["producer_id"]).Some?
             && AsKey(body["producer_id"]).value in s.producers
             && body["production_date"].JStr?)
            ==> r.payload == ErrorList(["validation errors", NotADatetime])
  {
    CreateCheeseUsing(AsWritten, s, body, today)
  }

  /** `create_cheese` with the date parsed as evidently intended. */
  function CreateCheese(s: Store, body: Body, today: Date): (r: Reply)
    ensures r.status == 201 <==>
              && HasRequiredFields(body)
              && AsKey(body["producer_id"]).Some? && AsKey(body["producer_id"]).value in s.producers
              && body["production_date"].JStr?
              && ParseIso(body["production_date"].s).Ok?
              && Before(ParseIso(body["production_date"].s).value, today)
              && IsNumber(body["price"])
              && 1.00 <= AsNumber(body["price"]).value <= 45.00
              && BooleanBindable(body["is_raw_milk"]) && Bindable(body["kind"]) && Bindable(body["image"])
    ensures r.status != 201 ==> r.store == s
    ensures r.status == 201 ==>
              && r.payload.CreatedCheese?
              && r.payload.id !in s.cheeses
              && r.store == s.(cheeses := s.cheeses[r.payload.id := r.payload.cheese])
              && r.payload.cheese == Cheese(AsKey(body["producer_id"]).value,
                                            ParseIso(body["production_date"].s).value,
                                            AsNumber(body["price"]).value,
                                            body["is_raw_milk"], body["kind"], body["image"])
  {
    CreateCheeseUsing(Strptime, s, body, today)
  }

  // ---------------------------------------------------------------------
  // PATCH /cheeses/<id>

  /** The keys of a PATCH body that name a column of `Cheese`; every other
      key fails `hasattr` and is skipped. */
  const CheeseColumns: set<string> := {"kind", "is_raw_milk", "production_date", "image", "price", "producer_id"}

  function FieldOr(body: Body, key: string, current: Json): Json {
    if key in body then body[key] else current
  }

  /** The `setattr` loop of `update_cheese` over one cheese. Assigning
      `production_date` runs its validator, whose comparison of a JSON value
      with a date raises TypeError; assigning `price` runs the price
      validator. Each key is assigned independently, so the order of the
      body's keys only decides which exception is raised first. */
  function Patch(c: Cheese, body: Body): (r: Result<Cheese>)
    ensures r.Ok? <==> && "production_date" !in body
                       && ("price" in body ==> IsNumber(body["price"]) && 1.00 <= AsNumber(body["price"]).value <= 45.00)
                       && ("producer_id" in body ==> AsKey(body["producer_id"]).Some?)
    ensures r.Ok? ==>
              && r.value.kind == FieldOr(body, "kind", c.kind)
              && r.value.isRawMilk == FieldOr(body, "is_raw_milk", c.isRawMilk)
              && r.value.image == FieldOr(body, "image", c.image)
              && r.value.productionDate == c.productionDate
              && r.value.price == (if "price" in body then AsNumber(body["price"]).value else c.price)
              && r.value.producerId == (if "producer_id" in body then AsKey(body["producer_id"]).value else c.producerId)
  {
    if "production_date" in body then
      Err(TypeError("'>=' not supported between instances of '" + TypeName(body["production_date"]) + "' and 'datetime.date'"))
    else
      var price :- if "price" in body then
                     var n :- AsNumber(body["price"]);
                     ValidatePrice(n)
                   else Ok(c.price);
      var producerId :- if "producer_id" in body then
                          match AsKey(body["producer_id"])
                          case Some(k) => Ok(k)
                          case None => Err(TypeError("producer_id is not an integer key"))
                        else Ok(c.producerId);
      Ok(Cheese(producerId, c.productionDate, price,
                FieldOr(body, "is_raw_milk", c.isRawMilk),
                FieldOr(body, "kind", c.kind),
                FieldOr(body, "image", c.image)))
  }

  /** `update_cheese`. An exception in the `setattr` loop, or in the commit
      when a column the body names cannot be written, is not caught: the
      request ends with status 500 and nothing is committed. SQLAlchemy
      writes only the columns whose value changed; the model checks every
      column the body names, which differs only when the body repeats a
      stored value the database could not have held. */
  function UpdateCheese(s: Store, id: int, body: Body): (r: Reply)
    ensures id !in s.cheeses ==> r.status == 404 && r.store == s
    ensures r.status == 200 || r.status == 404 || r.status == 500
    ensures id in s.cheeses ==> (r.status == 200 <==> Patch(s.cheeses[id], body).Ok? && ColumnsWritable(body))
    ensures (&& id in s.cheeses
             && (Patch(s.cheeses[id], body).Err? || !ColumnsWritable(body)))
            ==> r.status == 500 && r.store == s
    ensures r.status == 500 ==> r.payload == ServerError
    ensures r.status != 200 ==> r.store == s
    ensures r.status == 200 ==>
              && id in s.cheeses
              && r.store.producers == s.producers
              && r.store.cheeses.Keys == s.cheeses.Keys
              && r.payload == PatchedCheese(id, r.store.cheeses[id])
              && (forall k | k in s.cheeses && k != id :: r.store.cheeses[k] == s.cheeses[k])
              && Patch(s.cheeses[id], body) == Ok(r.store.cheeses[id])
  {
    if id !in s.cheeses then Reply(404, ErrorMessage("Resource not found"), s)
    else
      match Patch(s.cheeses[id], body)
      case Err(_) => Reply(500, ServerError, s)
      case Ok(c) =>
        match Flush(body)
        case Err(_) => Reply(500, ServerError, s)
        case Ok(_) => Reply(200, PatchedCheese(id, c), s.(cheeses := s.cheeses[id := c]))
  }

  // ---------------------------------------------------------------------
  // DELETE /cheeses/<id>

  /** `delete_cheese`. */
  function DeleteCheese(s: Store, id: int): (r: Reply)
    ensures id !in s.cheeses ==> r.status == 404 && r.store == s
    ensures id in s.cheeses ==>
              && r.status == 204
              && r.store.producers == s.producers
              && r.store.cheeses.Keys == s.cheeses.Keys - {id}
              && (forall k | k in r.store.cheeses :: r.store.cheeses[k] == s.cheeses[k])
  {
    if id !in s.cheeses then Reply(404, ErrorMessage("Resource not found"), s)
    else Reply(204, NoContent, s.(cheeses := s.cheeses - {id}))
  }
}

=== FILE: app_properties.dfy ===
/** Properties that relate several requests: what one handler leaves behind
  for the next, which store invariants the handlers keep, and how the
  create handler as written differs from the one evidently intended.
 */
module AppProperties {
  import opened Errors
  import opened Json
  import opened Dates
  import opened Models
  import opened Database
  import opened App

  // ---------------------------------------------------------------------
  // Deleting a producer

  /** After a producer is deleted its page is gone, and every other
      producer's page (its summary and its cheese list) is exactly what it
      was before. */
  lemma DeleteProducerKeepsOtherPages(s: Store, id: int, other: int)
    requires id in s.producers
    requires other != id
    ensures GetProducerById(DeleteProducer(s, id).store, id).status == 404
    ensures GetProducerById(DeleteProducer(s, id).store, other) == GetProducerById(s, other)
  {
    var t := DeleteProducer(s, id).store;
    assert CheeseIdsOf(t, other) == CheeseIdsOf(s, other) by {
      forall k ensures k in CheeseIdsOf(t, other) <==> k in CheeseIdsOf(s, other) {
        if k in CheeseIdsOf(s, other) {
          assert s.cheeses[k].producerId != id;
        }
      }
    }
    var ids := SortedKeys(CheeseIdsOf(s, other));
    assert CheeseViews(t, ids) == CheeseViews(s, ids);
    assert CheesesOf(t, other) == CheesesOf(s, other);
    if other in s.producers {
      assert t.producers[other] == s.producers[other];
    }
  }

  /** After a producer is deleted, no request for its cheeses finds any. */
  lemma DeleteProducerLeavesNoCheeses(s: Store, id: int)
    requires id in s.producers
    ensures CheeseIdsOf(DeleteProducer(s, id).store, id) == {}
  {
  }

  // ---------------------------------------------------------------------
  // Creating a cheese

  /** A cheese the create handler accepts shows up on its producer's page. */
  lemma CreatedCheeseIsListed(s: Store, body: Body, today: Date)
    requires CreateCheese(s, body, today).status == 201
    ensures var r := CreateCheese(s, body, today);
            var page := GetProducerById(r.store, r.payload.cheese.producerId);
            && page.status == 200
            && exists i | 0 <= i < |page.detail.value.cheeses| ::
                 page.detail.value.cheeses[i] == CheeseView(r.payload.id, r.payload.cheese)
  {
    var r := CreateCheese(s, body, today);
    var t, id, c := r.store, r.payload.id, r.payload.cheese;
    assert t.cheeses[id] == c;
    assert c.producerId in t.producers;
    var page := GetProducerById(t, c.producerId);
    var cheeses := page.detail.value.cheeses;
    assert id in t.cheeses && t.cheeses[id].producerId == c.producerId;
    var i :| 0 <= i < |cheeses| && cheeses[i].id == id;
    assert cheeses[i] == CheeseView(id, c);
  }

  /** A well-formed create request for an existing producer. */
  const SampleStore: Store := Store(map[1 := Producer("Fromagerie", 1990, "small", "Normandy", "")], map[])
  const SampleProduced: Date := Date(2023, 5, 1)
  const SampleToday: Date := Date(2024, 1, 1)
  const SampleBody: Body := map[
    "kind" := JStr("Brie"),
    "is_raw_milk" := JBool(true),
    "production_date" := JStr(FormatIso(SampleProduced)),
    "image" := JStr(""),
    "price" := JNum(12.5),
    "producer_id" := JNum(1.0)]

  /** The sample date parses back to the date it was formatted from. */
  lemma SampleDateParses()
    ensures ConvertDate(Strptime, SampleBody["production_date"]) == Ok(SampleProduced)
  {
    ParseFormatRoundTrip(SampleProduced);
    assert SampleBody["production_date"] == JStr(FormatIso(SampleProduced));
  }

  /** The try block of the corrected handler succeeds on the sample request. */
  lemma SampleBuilds()
    ensures BuildCheese(Strptime, SampleBody, 1, SampleToday).Ok?
  {
    var body := SampleBody;
    SampleDateParses();
    assert body["kind"] == JStr("Brie") && body["is_raw_milk"] == JBool(true);
    assert body["image"] == JStr("") && body["price"] == JNum(12.5);
    var c := Cheese(1, SampleProduced, 12.5, JBool(true), JStr("Brie"), JStr(""));
    assert NewCheese(body["kind"], body["is_raw_milk"], SampleProduced, body["image"], body["price"], 1, SampleToday) == Ok(c);
    assert ColumnsWritable(JsonColumns(c));
  }

  /** The corrected handler accepts the sample request. */
  lemma SampleIsAccepted()
    ensures CreateCheese(SampleStore, SampleBody, SampleToday).status == 201
  {
    SampleBuilds();
    assert HasRequiredFields(SampleBody) && AsKey(SampleBody["producer_id"]) == Some(1);
  }

  /** The create handler as written refuses a request that the intended
      handler accepts: a well-formed body for an existing producer. */
  lemma CreateAsWrittenRefusesValidRequest()
    ensures exists s: Store, body: Body, today: Date ::
              && CreateCheese(s, body, today).status == 201
              && CreateCheeseAsWritten(s, body, today).status == 400
              && CreateCheeseAsWritten(s, body, today).store == s
  {
    SampleIsAccepted();
    assert HasRequiredFields(SampleBody) && AsKey(SampleBody["producer_id"]) == Some(1);
    assert CreateCheeseAsWritten(SampleStore, SampleBody, SampleToday).status == 400;
  }

  // ---------------------------------------------------------------------
  // Updating a cheese

  /** The keys of a body that name a column. */
  function ColumnsOf(body: Body): (r: Body)
    ensures forall k :: k in r <==> k in body && k in CheeseColumns
    ensures forall k | k in r :: r[k] == body[k]
  {
    map k | k in body && k in CheeseColumns :: body[k]
  }

  /** Keys that do not name a column make no difference to an update. */
  lemma UpdateIgnoresUnknownKeys(s: Store, id: int, body: Body)
    ensures UpdateCheese(s, id, body) == UpdateCheese(s, id, ColumnsOf(body))
  {
    var cols := ColumnsOf(body);
    assert ColumnsWritable(body) <==> ColumnsWritable(cols) by {
      forall k | k in body && k !in cols ensures ColumnWritable(k, body[k]) {
        assert k !in CheeseColumns;
      }
    }
    if id in s.cheeses {
      assert Patch(s.cheeses[id], body) == Patch(s.cheeses[id], cols);
    }
  }

  /** An update whose body names no column leaves the store as it was. */
  lemma UpdateWithoutColumnsChangesNothing(s: Store, id: int, body: Body)
    requires id in s.cheeses
    requires forall k | k in body :: k !in CheeseColumns
    ensures UpdateCheese(s, id, body).status == 200
    ensures UpdateCheese(s, id, body).store == s
  {
  }

  /** Sending the same update twice has the effect of sending it once. */
  lemma UpdateIsIdempotent(s: Store, id: int, body: Body)
    requires UpdateCheese(s, id, body).status == 200
    ensures var t := UpdateCheese(s, id, body).store;
            && UpdateCheese(t, id, body).status == 200
            && UpdateCheese(t, id, body).store == t
  {
  }

  /** A value the database cannot hold in its column (a list or an object
      in `kind` or `image`, anything but a boolean, null, 0 or 1 in
      `is_raw_milk`) makes the commit raise: the corrected create then
      refuses the request, and an update answers 500 and changes nothing. */
  lemma UnwritableColumnIsRefused(s: Store, id: int, body: Body, today: Date, column: string)
    requires column in body && !ColumnWritable(column, body[column])
    ensures CreateCheese(s, body, today).status != 201
    ensures CreateCheese(s, body, today).store == s
    ensures id in s.cheeses ==> UpdateCheese(s, id, body).status == 500 && UpdateCheese(s, id, body).store == s
  {
  }

  /** An update may point a cheese at a producer that does not exist: the
      handler does not check the foreign key and SQLite does not enforce it
      by default. */
  lemma UpdateCanOrphanCheese()
    ensures exists s: Store, id: int, body: Body ::
              && ReferentiallyIntact(s)
              && UpdateCheese(s, id, body).status == 200
              && !ReferentiallyIntact(UpdateCheese(s, id, body).store)
  {
    var c := Cheese(1, Date(2023, 5, 1), 10.0, JBool(false), JStr("Brie"), JStr(""));
    var s := Store(map[1 := Producer("Fromagerie", 1990, "small", "Normandy", "")], map[7 := c]);
    var body: Body := map["producer_id" := JNum(2.0)];
    assert AsKey(JNum(2.0)) == Some(2);
    assert Patch(c, body) == Ok(c.(producerId := 2));
    assert ColumnsWritable(body) by {
      assert ColumnWritable("producer_id", JNum(2.0));
    }
    var t := UpdateCheese(s, 7, body).store;
    assert t.cheeses[7].producerId == 2;
    assert !ReferentiallyIntact(t);
  }

  // ---------------------------------------------------------------------
  // Store invariants

  /** Every handler keeps all stored prices within [1.00, 45.00]: the create
      and update handlers store a price only after `validate_price`. */
  lemma HandlersKeepPricesInRange(s: Store, id: int, body: Body, today: Date, how: DateConversion)
    requires PricesInRange(s)
    ensures PricesInRange(DeleteProducer(s, id).store)
    ensures PricesInRange(CreateCheeseUsing(how, s, body, today).store)
    ensures PricesInRange(UpdateCheese(s, id, body).store)
    ensures PricesInRange(DeleteCheese(s, id).store)
  {
  }

  /** Deleting a producer together with its cheeses, creating a cheese only
      for an existing producer, and deleting a cheese all keep every cheese
      attached to a stored producer. */
  lemma HandlersKeepReferentialIntegrity(s: Store, id: int, body: Body, today: Date, how: DateConversion)
    requires ReferentiallyIntact(s)
    ensures ReferentiallyIntact(DeleteProducer(s, id).store)
    ensures ReferentiallyIntact(CreateCheeseUsing(how, s, body, today).store)
    ensures ReferentiallyIntact(DeleteCheese(s, id).store)
  {
  }

  /** No handler stores a value the database could not hold: every row the
      create and update handlers write has passed the flush. */
  lemma HandlersKeepRowsWritable(s: Store, id: int, body: Body, today: Date, how: DateConversion)
    requires RowsWritable(s)
    ensures RowsWritable(DeleteProducer(s, id).store)
    ensures RowsWritable(CreateCheeseUsing(how, s, body, today).store)
    ensures RowsWritable(UpdateCheese(s, id, body).store)
    ensures RowsWritable(DeleteCheese(s, id).store)
  {
  }
}

=== FILE: database.dfy ===
/** The relational store as two maps from primary key to row, and the few
  things the handlers ask of it: scanning a table in key order, filtering
  cheeses by their producer, choosing the id of a new row, and writing the
  columns of a cheese at the commit.
 */
module Database {
  import opened Errors
  import opened Json
  import opened Models

  datatype Store = Store(producers: map<int, Producer>, cheeses: map<int, Cheese>)

  // ---------------------------------------------------------------------
  // Ordered key scan

  predicate IsLeast(m: int, ks: set<int>) {
    m in ks && forall k | k in ks :: m <= k
  }

  /** A set that is not empty has a member. */
  lemma HasMember(ks: set<int>)
    requires ks != {}
    ensures exists k :: k in ks
  {
    if forall k :: k !in ks {
      assert false;
    }
  }

  lemma {:induction false} LeastExists(ks: set<int>)
    requires ks != {}
    ensures exists m :: IsLeast(m, ks)
    decreases |ks|
  {
    HasMember(ks);
    var k :| k in ks;
    if ks - {k} == {} {
      forall j | j in ks ensures k <= j {
        assert j !in ks - {k};
      }
      assert IsLeast(k, ks);
    } else {
      LeastExists(ks - {k});
      var m :| IsLeast(m, ks - {k});
      var least := if k < m then k else m;
      forall j | j in ks ensures least <= j {
        if j != k {
          assert j in ks - {k};
        }
      }
      assert IsLeast(least, ks);
    }
  }

  /** The smallest key of a non-empty set. */
  function Least(ks: set<int>): (m: int)
    requires ks != {}
    ensures IsLeast(m, ks)
  {
    LeastExists(ks);
    var m :| IsLeast(m, ks);
    m
  }

  predicate StrictlyIncreasing(s: seq<int>) {
    forall i, j | 0 <= i < j < |s| :: s[i] < s[j]
  }

  /** The keys of a table in ascending order: every key exactly once. The
      source's queries carry no ORDER BY; ascending primary key is the order
      in which SQLite scans a table by its rowid. */
  function SortedKeys(ks: set<int>): (r: seq<int>)
    ensures StrictlyIncreasing(r)
    ensures forall i | 0 <= i < |r| :: r[i] in ks
    ensures forall k | k in ks :: k in r
    ensures |r| == |ks|
    decreases |ks|
  {
    if ks == {} then []
    else
      var m := Least(ks);
      var rest := SortedKeys(ks - {m});
      assert forall i | 0 <= i < |rest| :: m < rest[i];
      [m] + rest
  }

  // ---------------------------------------------------------------------
  // Queries

  /** The keys of the cheeses whose `producer_id` is `producerId`
      (`Cheese.query.filter_by(producer_id=...)`, and `producer.cheeses`). */
  function CheeseIdsOf(s: Store, producerId: int): (ids: set<int>)
    ensures forall k :: k in ids <==> k in s.cheeses && s.cheeses[k].producerId == producerId
  {
    set k | k in s.cheeses && s.cheeses[k].producerId == producerId
  }

  /** The id of a new row: a fresh key above every key in use. It is one
      more than the largest key, as SQLite picks a rowid, except that the
      model never hands out a key below 1. */
  function FreshId(ks: set<int>): (id: int)
    ensures id >= 1 && id !in ks
    ensures forall k | k in ks :: k < id
  {
    var sorted := SortedKeys(ks);
    if sorted == [] || sorted[|sorted| - 1] < 1 then 1
    else sorted[|sorted| - 1] + 1
  }

  /** The cheeses of distinct producers are disjoint, and every cheese is
      among the cheeses of its own producer: filtering by producer
      partitions the cheese table. */
  lemma CheeseIdsPartition(s: Store, a: int, b: int)
    ensures a != b ==> CheeseIdsOf(s, a) !! CheeseIdsOf(s, b)
    ensures forall k | k in s.cheeses :: k in CheeseIdsOf(s, s.cheeses[k].producerId)
  {
  }

  // ---------------------------------------------------------------------
  // Writing cheese columns

  /** Whether the sqlite3 driver can bind a value: None, a number (a bool
      among them) or a string. A list or a dict cannot be bound. */
  predicate Bindable(v: Json) {
    !v.JArray? && !v.JObject?
  }

  /** Whether SQLAlchemy's `Boolean` type accepts a value: None, True, False,
      or a number equal to one of them (0 == False and 1 == True). */
  predicate BooleanBindable(v: Json) {
    v.JNull? || v.JBool? || (v.JNum? && (v.n == 0.0 || v.n == 1.0))
  }

  /** Whether a value can be written to the named column of `cheeses`:
      `is_raw_milk` is a `Boolean` column, `kind` and `image` are `String`
      columns, which pass any bindable value to the driver. The other
      columns hold values the validators or the key lookup already
      checked. */
  predicate ColumnWritable(column: string, v: Json) {
    if column == "is_raw_milk" then BooleanBindable(v)
    else if column == "kind" || column == "image" then Bindable(v)
    else true
  }

  predicate ColumnsWritable(columns: map<string, Json>) {
    forall k | k in columns :: ColumnWritable(k, columns[k])
  }

  /** The JSON-valued columns of a cheese, by column name. */
  function JsonColumns(c: Cheese): (r: map<string, Json>)
    ensures ColumnsWritable(r) <==> BooleanBindable(c.isRawMilk) && Bindable(c.kind) && Bindable(c.image)
  {
    var r := map["is_raw_milk" := c.isRawMilk, "kind" := c.kind, "image" := c.image];
    assert r["is_raw_milk"] == c.isRawMilk && r["kind"] == c.kind && r["image"] == c.image;
    r
  }

  /** The flush at a commit: SQLAlchemy first runs each column's bind
      processor, where `Boolean` raises on any other value, and then hands
      the row to the driver, which raises on a value it cannot bind. Either
      failure reaches the caller as a StatementError. */
  function Flush(columns: map<string, Json>): (r: Result<()>)
    ensures r.Ok? <==> ColumnsWritable(columns)
    ensures r.Err? ==> r.error.StatementError?
  {
    if "is_raw_milk" in columns && !BooleanBindable(columns["is_raw_milk"]) then
      Err(StatementError("(builtins.TypeError) Not a boolean value"))
    else if !ColumnsWritable(columns) then
      Err(StatementError("(sqlite3.InterfaceError) Error binding parameter - probably unsupported type."))
    else
      Ok(())
  }

  // ---------------------------------------------------------------------
  // Store invariants

  /** Every cheese belongs to a stored producer. SQLite does not enforce the
      foreign key unless asked to, so this holds only as far as the
      handlers keep it. */
  predicate ReferentiallyIntact(s: Store) {
    forall k | k in s.cheeses :: s.cheeses[k].producerId in s.producers
  }

  /** Every stored price passed `validate_price`. */
  predicate PricesInRange(s: Store) {
    forall k | k in s.cheeses :: PriceInRange(s.cheeses[k])
  }

  /** Every stored cheese could be written back: the store holds only what
      the database can hold. */
  predicate RowsWritable(s: Store) {
    forall k | k in s.cheeses :: ColumnsWritable(JsonColumns(s.cheeses[k]))
  }
}

=== FILE: dates.dfy ===
/** Calendar dates as Python's `datetime.date` holds them, the ordering the
  production-date validator uses, and `datetime.strptime(s, '%Y-%m-%d')`,
  the parse the create handler evidently meant to call.
 */
module Dates {
  import opened Errors

  datatype Date = Date(year: int, month: int, day: int)

  predicate IsLeapYear(y: int) {
    y % 4 == 0 && (y % 100 != 0 || y % 400 == 0)
  }

  function DaysInMonth(y: int, m: int): (n: int)
    requires 1 <= m <= 12
    ensures 28 <= n <= 31
  {
    if m == 2 then (if IsLeapYear(y) then 29 else 28)
    else if m == 4 || m == 6 || m == 9 || m == 11 then 30
    else 31
  }

  /** The dates `datetime.date` can represent (MINYEAR 1 to MAXYEAR 9999). */
  predicate Valid(d: Date) {
    && 1 <= d.year <= 9999
    && 1 <= d.month <= 12
    && 1 <= d.day <= DaysInMonth(d.year, d.month)
  }

  /** Chronological order, which for dates is lexicographic on (year, month, day). */
  predicate Before(a: Date, b: Date) {
    || a.year < b.year
    || (a.year == b.year && a.month < b.month)
    || (a.year == b.year && a.month == b.month && a.day < b.day)
  }

  /** Before is a strict total order: no date is before itself, it chains,
      and any two distinct dates are ordered one way round. */
  lemma BeforeIsStrictTotalOrder(a: Date, b: Date, c: Date)
    ensures !Before(a, a)
    ensures Before(a, b) && Before(b, c) ==> Before(a, c)
    ensures a != b ==> Before(a, b) || Before(b, a)
    ensures !(Before(a, b) && Before(b, a))
  {
  }

  // ---------------------------------------------------------------------
  // Digits

  predicate IsDigit(c: char) {
    '0' <= c <= '9'
  }

  predicate AllDigits(s: string) {
    forall i | 0 <= i < |s| :: IsDigit(s[i])
  }

  function DigitValue(c: char): (n: nat)
    requires IsDigit(c)
    ensures n < 10
  {
    (c as int) - ('0' as int)
  }

  function DigitChar(n: nat): (c: char)
    requires n < 10
    ensures IsDigit(c) && DigitValue(c) == n
  {
    (('0' as int) + n) as char
  }

  /** The value of a decimal digit string, as Python's `int()` reads it. */
  function Number(s: string): nat
    requires AllDigits(s)
  {
    if s == [] then 0 else Number(s[..|s| - 1]) * 10 + DigitValue(s[|s| - 1])
  }

  /** `n` written with exactly two digits, zero-padded. */
  function Pad2(n: nat): (s: string)
    requires n < 100
    ensures |s| == 2 && AllDigits(s) && Number(s) == n
  {
    var s := [DigitChar(n / 10), DigitChar(n % 10)];
    assert s[..1] == [s[0]] && [s[0]][..0] == [];
    assert Number(s[..1]) == n / 10;
    s
  }

  /** `n` written with exactly four digits, zero-padded. */
  function Pad4(n: nat): (s: string)
    requires n < 10000
    ensures |s| == 4 && AllDigits(s) && Number(s) == n
  {
    var hi := Pad2(n / 100);
    var lo := Pad2(n % 100);
    var s := hi + lo;
    assert s[..3] == hi + [lo[0]];
    assert (hi + [lo[0]])[..2] == hi;
    s
  }

  // ---------------------------------------------------------------------
  // strptime(s, '%Y-%m-%d')

  /** The `%m` directive, `1[0-2]|0[1-9]|[1-9]`, followed by the literal
      '-': the month and the text after the dash. Only one alternative can
      be followed by a dash, so the regular expression's backtracking
      has one outcome. */
  function MatchMonth(t: string): (r: Option<(nat, string)>)
    ensures r.Some? ==> 1 <= r.value.0 <= 12 && |r.value.1| < |t|
  {
    if |t| >= 3 && t[2] == '-'
       && ((t[0] == '1' && '0' <= t[1] <= '2') || (t[0] == '0' && '1' <= t[1] <= '9'))
    then
      assert t[..2][..1] == [t[0]];
      Some((DigitValue(t[0]) * 10 + DigitValue(t[1]), t[3..]))
    else if |t| >= 2 && '1' <= t[0] <= '9' && t[1] == '-' then
      Some((DigitValue(t[0]), t[2..]))
    else
      None
  }

  /** The `%d` directive, `3[01]|[12]\d|0[1-9]|[1-9]| [1-9]`, which must
      consume the rest of the input: the first alternative that matches is
      taken, and any text left after it is "unconverted data". */
  function MatchDay(t: string): (r: Option<nat>)
    ensures r.Some? ==> 1 <= r.value <= 39
  {
    if |t| == 2 && t[0] == '3' && (t[1] == '0' || t[1] == '1') then Some(30 + DigitValue(t[1]))
    else if |t| == 2 && (t[0] == '1' || t[0] == '2') && IsDigit(t[1]) then Some(DigitValue(t[0]) * 10 + DigitValue(t[1]))
    else if |t| == 2 && t[0] == '0' && '1' <= t[1] <= '9' then Some(DigitValue(t[1]))
    else if |t| == 2 && t[0] == ' ' && '1' <= t[1] <= '9' then Some(DigitValue(t[1]))
    else if |t| == 1 && '1' <= t[0] <= '9' then Some(DigitValue(t[0]))
    else None
  }

  /** `datetime.strptime(s, '%Y-%m-%d').date()`: four digits of year, a
      dash, the month, a dash, the day and nothing after; the fields must
      then name a real calendar day, or `datetime.date` raises ValueError. */
  function ParseIso(s: string): (r: Result<Date>)
    ensures r.Ok? ==> Valid(r.value)
    ensures r.Err? ==> r.error.ValueError?
  {
    if |s| < 5 || !AllDigits(s[..4]) || s[4] != '-' then
      Err(ValueError("time data does not match format '%Y-%m-%d'"))
    else
      match MatchMonth(s[5..])
      case None => Err(ValueError("time data does not match format '%Y-%m-%d'"))
      case Some((month, rest)) =>
        match MatchDay(rest)
        case None => Err(ValueError("time data does not match format '%Y-%m-%d'"))
        case Some(day) =>
          var d := Date(Number(s[..4]), month, day);
          if Valid(d) then Ok(d) else Err(ValueError("day is out of range for month"))
  }

  /** `d.strftime('%Y-%m-%d')`. */
  function FormatIso(d: Date): (s: string)
    requires Valid(d)
    ensures |s| == 10 && s[4] == '-' && s[7] == '-'
  {
    Pad4(d.year) + "-" + Pad2(d.month) + "-" + Pad2(d.day)
  }

  /** Parsing a formatted date gives the date back. */
  lemma ParseFormatRoundTrip(d: Date)
    requires Valid(d)
    ensures ParseIso(FormatIso(d)) == Ok(d)
  {
    var y, m, dd := Pad4(d.year), Pad2(d.month), Pad2(d.day);
    var s := FormatIso(d);
    assert s == y + "-" + m + "-" + dd;
    assert s[..4] == y;
    assert s[4] == '-';
    assert s[5..] == m + "-" + dd;
    var t := s[5..];
    assert t[..2] == m && t[2] == '-' && t[3..] == dd;
    assert m[0] == DigitChar(d.month / 10) && m[1] == DigitChar(d.month % 10);
    assert MatchMonth(t) == Some((d.month, dd));
    assert dd[0] == DigitChar(d.day / 10) && dd[1] == DigitChar(d.day % 10);
    assert MatchDay(dd) == Some(d.day);
  }
}

=== FILE: errors.dfy ===
/** Failure-carrying results for the service model.

  The Python code signals failure by raising. The model keeps the exception
  classes the handlers can observe (the validators raise AssertionError, a
  comparison or call on the wrong type raises TypeError, date parsing raises
  ValueError, and a row the database cannot store makes SQLAlchemy raise
  StatementError at the commit) and returns them in a Result instead.
 */
module Errors {

  datatype Error =
    | AssertionError(message: string)
    | TypeError(message: string)
    | ValueError(message: string)
    | StatementError(message: string)

  datatype Option<+T> = None | Some(value: T)

  datatype Result<+T> = Ok(value: T) | Err(error: Error) {

    predicate IsFailure() {
      Err?
    }

    function PropagateFailure<U>(): Result<U>
      requires Err?
    {
      Err(error)
    }

    function Extract(): T
      requires Ok?
    {
      value
    }
  }
}

=== FILE: json.dfy ===
/** The values a request body can carry, and the two ways the handlers read
  them: as a number (a Python comparison such as `price < 1.00`) and as a row
  key (`Producer.query.get(value)`).
 */
module Json {
  import opened Errors

  /** A decoded JSON value. Numbers are the exact value of the literal. */
  datatype Json =
    | JNull
    | JBool(b: bool)
    | JNum(n: real)
    | JStr(s: string)
    | JArray(items: seq<Json>)
    | JObject(fields: map<string, Json>)

  /** A request body: a JSON object, keyed by field name. */
  type Body = map<string, Json>

  /** Python numbers: int and float, and bool, which is a subclass of int. */
  predicate IsNumber(v: Json) {
    v.JNum? || v.JBool?
  }

  /** The name of the Python type of a decoded value. A number is named
      `int` when it is integral and `float` otherwise. */
  function TypeName(v: Json): string {
    match v
    case JNull => "NoneType"
    case JBool(_) => "bool"
    case JNum(n) => if n == n.Floor as real then "int" else "float"
    case JStr(_) => "str"
    case JArray(_) => "list"
    case JObject(_) => "dict"
  }

  /** The value Python compares when `v` meets a float in `<` or `>`: a bool
      counts as 0 or 1, anything else raises TypeError. */
  function AsNumber(v: Json): (r: Result<real>)
    ensures r.Ok? <==> IsNumber(v)
    ensures v.JNum? ==> r == Ok(v.n)
    ensures v.JBool? ==> r == Ok(if v.b then 1.0 else 0.0)
    ensures r.Err? ==> r.error.TypeError?
  {
    match v
    case JNum(n) => Ok(n)
    case JBool(b) => Ok(if b then 1.0 else 0.0)
    case _ => Err(TypeError("'<' not supported between instances of '" + TypeName(v) + "' and 'float'"))
  }

  /** The integer primary key a value designates when used as an id: an
      integral number, or a bool (True == 1, False == 0). */
  function AsKey(v: Json): (r: Option<int>)
    ensures r.Some? ==> IsNumber(v) && AsNumber(v) == Ok(r.value as real)
    ensures v.JNum? ==> (r.Some? <==> v.n == v.n.Floor as real)
    ensures !IsNumber(v) ==> r.None?
  {
    match v
    case JNum(n) => if n == n.Floor as real then Some(n.Floor) else None
    case JBool(b) => Some(if b then 1 else 0)
    case _ => None
  }
}

=== FILE: models.dfy ===
/** The two persisted entities and the validators that guard their columns.

  In the source every validator runs when its attribute is assigned (at
  construction or by a later `setattr`), raises AssertionError on a bad
  value and otherwise returns the value it was given, which is what gets
  stored. The clock the validators read is a parameter here: `currentYear`
  for the founding year and `today` for the production date.
 */
module Models {
  import opened Errors
  import opened Json
  import opened Dates

  /** A row of `producers`; its id is the key it is stored under. */
  datatype Producer = Producer(
    name: string,
    foundingYear: int,
    operationSize: string,
    region: string,
    image: string)

  /** A row of `cheeses`; its id is the key it is stored under. The columns
      without a validator hold the JSON value that was supplied. */
  datatype Cheese = Cheese(
    producerId: int,
    productionDate: Date,
    price: real,
    isRawMilk: Json,
    kind: Json,
    image: Json)

  // ---------------------------------------------------------------------
  // Producer validators

  /** `validate_name`: an empty (falsy) name is refused. */
  function ValidateName(name: string): (r: Result<string>)
    ensures r.Ok? <==> |name| > 0
    ensures r.Ok? ==> r.value == name
    ensures r.Err? ==> r.error == AssertionError("Name is required")
  {
    if name == "" then Err(AssertionError("Name is required")) else Ok(name)
  }

  /** `validate_founding_year`: both ends of [1900, current year] are allowed. */
  function ValidateFoundingYear(year: int, currentYear: int): (r: Result<int>)
    ensures r.Ok? <==> 1900 <= year && year <= currentYear
    ensures r.Ok? ==> r.value == year
    ensures r.Err? ==> r.error.AssertionError?
  {
    if year < 1900 || year > currentYear then
      Err(AssertionError("Founding year must be between 1900 and the current year"))
    else
      Ok(year)
  }

  /** The operation sizes a producer may declare. */
  const OperationSizes: seq<string> := ["small", "medium", "large", "family", "corporate"]

  /** `validate_operation_size`: exactly the five listed sizes. */
  function ValidateOperationSize(size: string): (r: Result<string>)
    ensures r.Ok? <==> size == "small" || size == "medium" || size == "large"
                       || size == "family" || size == "corporate"
    ensures r.Ok? ==> r.value == size
    ensures r.Err? ==> r.error.AssertionError?
  {
    if size !in OperationSizes then
      Err(AssertionError("Operation size must be one of \"small\", \"medium\", \"large\", \"family\", \"corporate\""))
    else
      Ok(size)
  }

  // ---------------------------------------------------------------------
  // Cheese validators

  /** `validate_production_date`: the date must lie strictly before today. */
  function ValidateProductionDate(date: Date, today: Date): (r: Result<Date>)
    ensures r.Ok? <==> Before(date, today)
    ensures date == today ==> r.Err?
    ensures r.Ok? ==> r.value == date
    ensures r.Err? ==> r.error.AssertionError?
  {
    if !Before(date, today) then Err(AssertionError("Production date must be before today"))
    else Ok(date)
  }

  /** `validate_price`: both bounds of [1.00, 45.00] are allowed. */
  function ValidatePrice(price: real): (r: Result<real>)
    ensures r.Ok? <==> 1.00 <= price && price <= 45.00
    ensures r.Ok? ==> r.value == price
    ensures r.Err? ==> r.error.AssertionError?
  {
    if price < 1.00 || price > 45.00 then Err(AssertionError("Price must be between 1.00 and 45.00"))
    else Ok(price)
  }

  // ---------------------------------------------------------------------
  // Records that passed their validators

  predicate PriceInRange(c: Cheese) {
    1.00 <= c.price <= 45.00
  }

  /** What the validators guarantee of a cheese at the moment it was written. */
  predicate ValidCheese(c: Cheese, today: Date) {
    Before(c.productionDate, today) && PriceInRange(c)
  }

  /** What the validators guarantee of a producer at the moment it was written. */
  predicate ValidProducer(p: Producer, currentYear: int) {
    && |p.name| > 0
    && 1900 <= p.foundingYear <= currentYear
    && p.operationSize in OperationSizes
  }

  /** `Producer(name=..., founding_year=..., operation_size=..., ...)`: each
      validated column is checked as it is assigned; the first failure
      raises and no producer exists. */
  function NewProducer(name: string, foundingYear: int, operationSize: string,
                       region: string, image: string, currentYear: int): (r: Result<Producer>)
  {
    var n :- ValidateName(name);
    var y :- ValidateFoundingYear(foundingYear, currentYear);
    var s :- ValidateOperationSize(operationSize);
    Ok(Producer(n, y, s, region, image))
  }

  /** A producer is built exactly when every validated field is acceptable,
      and then it stores the supplied values unchanged. */
  lemma NewProducerAcceptsExactlyValid(name: string, foundingYear: int, operationSize: string,
                                       region: string, image: string, currentYear: int)
    ensures var r := NewProducer(name, foundingYear, operationSize, region, image, currentYear);
            && (r.Ok? <==> ValidProducer(Producer(name, foundingYear, operationSize, region, image), currentYear))
            && (r.Ok? ==> r.value == Producer(name, foundingYear, operationSize, region, image))
  {
  }

  /** `Cheese(kind=..., is_raw_milk=..., production_date=..., image=...,
      price=..., producer_id=...)`: the keyword arguments are assigned in
      order, so the production date is validated before the price; the
      price validator's comparison raises TypeError on a non-number. */
  function NewCheese(kind: Json, isRawMilk: Json, productionDate: Date, image: Json,
                     price: Json, producerId: int, today: Date): (r: Result<Cheese>)
    ensures r.Ok? <==> Before(productionDate, today) && IsNumber(price)
                       && 1.00 <= AsNumber(price).value <= 45.00
    ensures r.Ok? ==> r.value == Cheese(producerId, productionDate, AsNumber(price).value, isRawMilk, kind, image)
    ensures r.Ok? ==> ValidCheese(r.value, today)
    ensures !Before(productionDate, today) ==> r.Err? && r.error.AssertionError?
    ensures Before(productionDate, today) && !IsNumber(price) ==> r.Err? && r.error.TypeError?
    ensures (&& Before(productionDate, today)
             && IsNumber(price)
             && !(1.00 <= AsNumber(price).value <= 45.00))
            ==> r.Err? && r.error.AssertionError?
  {
    var d :- ValidateProductionDate(productionDate, today);
    var n :- AsNumber(price);
    var p :- ValidatePrice(n);
    Ok(Cheese(producerId, d, p, isRawMilk, kind, image))
  }

  /** Write-time checks stay true as the clock moves forward: a cheese valid
      when written is valid on every later day, and a producer valid in one
      year is valid in every later year. */
  lemma ValidityIsStableOverTime(c: Cheese, p: Producer, today: Date, later: Date,
                                 currentYear: int, laterYear: int)
    requires !Before(later, today)
    requires currentYear <= laterYear
    ensures ValidCheese(c, today) ==> ValidCheese(c, later)
    ensures ValidProducer(p, currentYear) ==> ValidProducer(p, laterYear)
  {
  }
}
